=== FILE: README.md ===
# OMNICOM Nebula backend: relay routing and auth ladders in Dafny

This project models two parts of the Nebula chat backend and proves properties about them.

**The socket.io relay** (`nebula_backend/src/ws.js`). Chat uses the default namespace: a socket
joins room `ch_<channelId>`, and `send_message` is relayed as `receive_message` to everyone in that
room, the sender included, with a server timestamp. The watch party uses the `/watchparty`
namespace: `join_room` joins the room id exactly as the client sent it and acknowledges with
`joined_room` to the joiner only. `sync_action` forwards `{type, payload}` to the other members of
the room.

`SocketRelay.Hub` is a class holding one membership map per namespace, from socket id to the set of
rooms that socket joined. Its handler methods update that map or return the deliveries
(namespace, recipient, event). `SendMessage` and `SyncAction` have no `modifies` clause, so they
provably store nothing. Each handler is specified by a pure function, and the routing properties are
lemmas about those functions.

Event arguments are JSON-decoded JavaScript values (`JsValues.Value`), so these edge cases of the
code are explicit:
- a `null` or `undefined` argument makes `send_message` and `sync_action` throw a TypeError before
  anything is emitted, since both read fields of it; `join_channel` and `join_room` read no field and
  accept it as a room: `ch_null` or `ch_undefined` for a channel, the raw value for a watch-party room;
- converting a value to a string in a template literal throws a TypeError for an object with its own
  `toString` property (such as `{"toString": 1}`), or for an array holding one, so a channel id, a
  watch-party room id or an action type of that shape makes its handler throw too;
- `ch_${x}` converts the channel id to a string, so channel `5`, channel `"5"` and channel `[5]` share a room;
- watch-party rooms use the raw value, so `5` and `"5"` are different rooms.

**The auth handlers**, in two variants:
- `nebula_backend/src/auth.js` is the module `index.js` mounts. It has `register`, `login` and the
  `verifyToken` middleware, which takes the second space-separated word of the header as the token.
- `nebula_backend/src/routes/auth.js` is a router. Its `verifyToken` accepts only `Bearer <token>`.
  It also has `/register`, `/login`, `/profile` and `/me`.

Each handler is a pure function of the request fields and a `Backend` of library oracles:
- bcrypt's `hash` and `compare`;
- the Postgres query, which returns rows or an error with a `code`;
- jsonwebtoken's `sign` and `verify`.

The function returns the response and the ordered list of oracle calls it made. That list is what
lets a contract say "answered 400 before any hashing or database write". When a handler without a
catch meets a failing library call, its promise rejects with nothing sent; the model records this as
the response `Rejected(fault)`.

Each middleware is also a module-level method, `RoutesAuth.VerifyToken` and `Auth.VerifyToken`. It
takes an `Http.Exchange` object and applies the middleware's decision function to it
(`Http.Apply`). It either sets `req.user` and counts one `next()` call, or records the response.

The code keeps no per-room state: `sync_action` is a stateless relay of `{type, payload}`. A null or
undefined argument to `send_message` or `sync_action` throws a TypeError; it is not silently dropped.

## Model

| member | source | states |
|---|---|---|
| `JsValues.DigitsRoundTrip` | nebula_backend/src/ws.js:6 | the decimal text `${n}` produces for a channel number reads back as that number |
| `JsValues.IntToStringInjective` | nebula_backend/src/ws.js:6 | two integers render to the same text in `ch_${n}` exactly when they are equal |
| `JsValues.ToString` | nebula_backend/src/ws.js:6 | the conversion `${v}` never throws on a primitive, and throws on an object exactly when the object has its own `toString` property; other objects render as `[object Object]` |
| `JsValues.ArrayToStringThrowsIff` | nebula_backend/src/ws.js:6 | converting an array throws exactly when converting one of its non-null elements throws |
| `JsValues.SingletonArrayToString` | nebula_backend/src/ws.js:6 | a one-element array converts exactly as its element does, and as the empty string when that element is null or undefined |
| `SocketRelay.ChannelRoomKeys` | nebula_backend/src/ws.js:6 | chat room keys compare channel ids by their string form: `5`, `"5"` and `[5]` share a room, as do `"x"` and `["x"]`, as do a missing id and `"undefined"`; every object without an own `toString` lands in `ch_[object Object]`, and one with an own `toString` (or in a one-element array) has no room; distinct numbers or distinct strings never collide; the raw values `5` and `"5"` used as watch-party rooms differ |
| `SocketRelay.JoinAddsOnlyThatRoom` | nebula_backend/src/ws.js:28 | `socket.join(r)` adds the socket to room `r` and to no other room, and connects or removes no socket |
| `SocketRelay.BroadcastReaches` | nebula_backend/src/ws.js:36 | a room broadcast reaches exactly the room's members outside the excluded set, each with the same event in the same namespace |
| `SocketRelay.SendMessageReachesChannel` | nebula_backend/src/ws.js:8-15 | `send_message` throws exactly when the argument is null/undefined or its `channelId` cannot be converted to a string; otherwise its recipients are exactly the members of `ch_<channelId>` |
| `SocketRelay.SenderEchoIffJoined` | nebula_backend/src/ws.js:8-9 | the sender receives its own `receive_message` if and only if the handler does not throw and the sender has joined the channel's room |
| `SocketRelay.ReceiveMessageStampedByServer` | nebula_backend/src/ws.js:9-14 | every `receive_message` carries `user`, `channelId`, `message` copied from the argument and the server's `created_at`; arguments that agree on those three fields give identical deliveries, so a client-sent `created_at` has no effect |
| `SocketRelay.SyncActionSkipsSender` | nebula_backend/src/ws.js:34-37 | `sync_action` throws exactly when the argument is null/undefined or the log line cannot convert its `type` or `roomId`; otherwise it reaches exactly the members of `roomId` other than the sender, never the sender, each with `{type, payload}` |
| `SocketRelay.SyncActionReadsThreeFields` | nebula_backend/src/ws.js:34-36 | only `roomId`, `type` and `payload` of the argument affect what `sync_action` emits; the room id itself is not forwarded |
| `SocketRelay.NamespacesIsolated` | nebula_backend/src/ws.js:20-23 | chat deliveries stay in the default namespace among chat sockets, and watch-party deliveries stay in `/watchparty` among watch-party sockets, whatever rooms the other namespace has |
| `SocketRelay.Hub.Connect` | nebula_backend/src/ws.js:23 | a new connection to a namespace starts with no rooms; the other namespace is untouched |
| `SocketRelay.Hub.Disconnect` | nebula_backend/src/ws.js:39-41 | the disconnect handler adds no effect of its own; socket.io's cleanup removes the socket from every room of that namespace, so no later broadcast reaches it; unknown ids are tolerated |
| `SocketRelay.Hub.JoinChannel` | nebula_backend/src/ws.js:6 | `join_channel(ch)` adds the socket to `ch_${ch}` only and emits nothing; when `ch` cannot be converted it throws and joins nothing; the watch-party namespace is unchanged either way |
| `SocketRelay.Hub.SendMessage` | nebula_backend/src/ws.js:8-15 | throws exactly on a null/undefined argument or an unconvertible `channelId`; otherwise relays to every member of the channel room, the sender included if it joined; no state changes |
| `SocketRelay.Hub.JoinRoom` | nebula_backend/src/ws.js:27-31 | `join_room(roomId)` adds the socket to the unprefixed room `roomId` only; it then sends `joined_room(roomId)` to the joiner alone, or, when the log line cannot convert `roomId`, throws after the join and sends nothing |
| `SocketRelay.Hub.SyncAction` | nebula_backend/src/ws.js:34-37 | throws exactly on a null/undefined argument or an unconvertible `type` or `roomId`; otherwise relays `{type, payload}` to the room without echoing to the sender; no state changes |
| `Headers.Split` | nebula_backend/src/auth.js:41 | `split(" ")` yields at least one piece and no piece contains a space |
| `Headers.JoinSplit` | nebula_backend/src/auth.js:41 | joining the pieces of `split(" ")` with single spaces gives back the header |
| `Headers.SecondWordOf` | nebula_backend/src/auth.js:41 | `split(" ")[1]` of `scheme + " " + token + tail` is `token`, for any space-free scheme |
| `Headers.SecondWordIgnoresScheme` | nebula_backend/src/auth.js:41 | `split(" ")[1]` of `scheme + " " + rest` is the same as for `"Bearer " + rest`, for any space-free scheme and any `rest` |
| `Headers.NoSpaceNoSecondWord` | nebula_backend/src/auth.js:41 | `split(" ")[1]` is undefined exactly when the header contains no space |
| `Headers.BearerTokenIff` | nebula_backend/src/routes/auth.js:27 | the token is `t` exactly when the header is `"Bearer " + t` (the first 7 characters removed); otherwise there is no token |
| `RoutesAuth.MissingTokenIff` | nebula_backend/src/routes/auth.js:26-28 | 401 "Missing token" exactly when the header is absent, lacks the `"Bearer "` prefix, or is exactly `"Bearer "` |
| `RoutesAuth.BearerGateVerifiesRest` | nebula_backend/src/routes/auth.js:30-35 | for `"Bearer " + t` with non-empty `t`, exactly `t` is verified: success admits with the decoded payload, failure gives 401 "Invalid token" |
| `RoutesAuth.VerifyToken` | nebula_backend/src/routes/auth.js:25-36 | on admission sets `req.user` and calls `next` exactly once with no response; otherwise sends the decision's 401 and neither sets `req.user` nor calls `next` |
| `RoutesAuth.Me` | nebula_backend/src/routes/auth.js:106-108 | `/me` answers `{user: req.user}` after the middleware admits, with `req.user` the decoded payload and one `next()`; otherwise the middleware's 401, with `req.user` and the `next()` count unchanged |
| `RoutesAuth.RegisterChecksFieldsFirst` | nebula_backend/src/routes/auth.js:42-45 | 400 with no oracle call exactly when username or password is missing or empty; otherwise hashing comes first |
| `RoutesAuth.RegisterOutcomes` | nebula_backend/src/routes/auth.js:45-62 | hash then conflict-ignoring insert of `[username, hash]`; 409 exactly when the insert returns no row, otherwise `{ok: true, user: rows[0]}`; library failures give 500 |
| `RoutesAuth.LoginChecksFieldsFirst` | nebula_backend/src/routes/auth.js:68-75 | 400 with no oracle call exactly when a field is missing or empty; otherwise the credentials query runs first and its failure gives 500 |
| `RoutesAuth.LoginHidesWhichCheckFailed` | nebula_backend/src/routes/auth.js:77-81 | 401 "Invalid credentials" exactly when there is no row or the password comparison fails: both give the same response |
| `RoutesAuth.LoginComparesStoredPassword` | nebula_backend/src/routes/auth.js:77-87 | once a truthy row is found, a failing comparison is answered 500 "Server error" and a match 200 with the token signed over the row's `{id, username}` |
| `RoutesAuth.LoginSignsIdAndName` | nebula_backend/src/routes/auth.js:83-84 | a successful login signs exactly `{id, username}` of the database row, never the password, and answers `{token}` |
| `RoutesAuth.ProfileProjectsClaims` | nebula_backend/src/routes/auth.js:92-102 | 401 "No token" exactly when the header is absent or empty; otherwise 200 exactly when the second word verifies to a non-null payload, with a body holding only that payload's `id` and `username`, and 401 "Invalid token" in every other case |
| `RoutesAuth.ProfileIgnoresScheme` | nebula_backend/src/routes/auth.js:97 | `/profile` treats any space-free scheme word like `Bearer`, whatever follows it |
| `Auth.RegisterFailureMapping` | nebula_backend/src/auth.js:16-22 | an error with code `"23505"` gives 400 "Username already exists" and any other error gives 500 |
| `Auth.RegisterOkOnlyAfterInsert` | nebula_backend/src/auth.js:8-15 | the password is always hashed first, with no presence check; `{ok: true}` is sent exactly when the hash and then the insert of `[username, hash]` succeed |
| `Auth.RegisterAnswersFailures` | nebula_backend/src/auth.js:9-22 | `register` always answers; a failing hash or insert is answered by the catch block with that error, so 400 "Username already exists" is sent exactly when the failing call's error has code `"23505"` |
| `Auth.LoginHidesWhichCheckFailed` | nebula_backend/src/auth.js:28-32 | 401 "Invalid" exactly for no row or a password mismatch; a failing query, a null first row (TypeError) or a failing comparison rejects the handler's promise with that error and sends nothing |
| `Auth.LoginAcceptsMatchingPassword` | nebula_backend/src/auth.js:28-34 | a stored row whose hash matches the password is answered 200 with the token signed over the row's id and the request's username |
| `Auth.LoginSignsRequestName` | nebula_backend/src/auth.js:33-34 | a successful login signs `{id, username}` with the row's id but the request's username, and answers `{token}` |
| `Auth.SplitGateDecides` | nebula_backend/src/auth.js:37-46 | 401 "No token" exactly when the header is absent or empty; otherwise admission exactly when the second word exists, is non-empty and verifies, with `req.user` the verified payload, and 401 "Invalid token" in every other case, a header without a space included |
| `Auth.SplitGateIgnoresScheme` | nebula_backend/src/auth.js:41 | any space-free scheme word is treated like `Bearer`, whatever follows it; for `scheme + " " + t` with a non-empty, space-free `t`, exactly `t` is verified |
| `Http.Apply` | nebula_backend/src/auth.js:39-44 | a middleware acting on its decision: on admission `req.user` becomes the decoded payload and `next()` is called once, with no response; on denial the response is recorded and neither `req.user` nor `next()` changes |
| `Auth.VerifyToken` | nebula_backend/src/auth.js:37-46 | on admission sets `req.user` and calls `next` once with no response; otherwise sends the 401 and neither sets `req.user` nor calls `next` |
| `MiddlewareComparison.GatesAgreeOnBearer` | nebula_backend/src/auth.js:41 | for `"Bearer " + t` with a non-empty, space-free `t`, both middlewares reach the same decision, given that their two `jwt.verify` calls (each with its own secret) agree on `t`, as they do when `JWT_SECRET` is set |
| `MiddlewareComparison.OnlySplitGateAcceptsOtherSchemes` | nebula_backend/src/routes/auth.js:27-28 | with a scheme word other than `Bearer`, the router's middleware answers "Missing token", while the mounted one verifies the second word as if the scheme were `Bearer` |

## Left out

- Logging (`console.log`, `console.error`, `console.warn`) everywhere. What is logged is not modelled; the string conversions the watch-party log templates perform are, since they can throw.
- socket.io internals. These are not modelled:
  - the per-socket room named after the socket id. So a `roomId` equal to another socket's id
    reaches that socket, and `socket.to` also leaves out every socket that joined a room named
    after the sender's id; the model reaches neither and leaves out only the sender;
  - delivery order, acknowledgements, and loss on slow or dead connections;
  - what follows a handler's TypeError. socket.io 4 runs event listeners outside any caller's
    `try`, so the error is an uncaught exception of the whole Node process, not of one connection.
    The model records only that the handler emitted nothing (`Threw`).
  - The model uses the abstract rules stated in `socket_relay.dfy`.
- Room keys:
  - arrays are values of the model, and `ch_${[5]}` is `ch_5` as in JavaScript; but an array passed to `join_room` or as the `roomId` of `sync_action`, which socket.io treats as several rooms, is modelled as a single room key. So `sync_action` with
    `roomId: []`, which socket.io 4 relays to every `/watchparty` socket but the sender, reaches
    nobody in the model;
  - socket.io compares object room ids by reference, while the model compares them structurally.
- Event arguments that are not JSON values. A client that emits with an acknowledgement callback
  hands the server a function as the last argument, and with no other argument that function is the
  `ch` of `join_channel`, the `data` of `send_message` or `sync_action`, or the `roomId` of
  `join_room`. `join_channel` then joins `ch_` followed by the function's source text, and
  `join_room` joins a room keyed by the function and sends no room id with `joined_room`. Binary
  arguments arrive as Buffers, so `join_channel` with the bytes "5" joins `ch_5`. Neither kind is a
  `JsValues.Value`.
- JavaScript values:
  - numbers are integers only, so floating point, `NaN` and exponent notation in `String(x)` are not modelled;
  - inherited properties are not represented. The fields the handlers read are own properties; the one inherited member the code relies on is `Object.prototype.toString`, used by the string conversion unless an own `toString` property shadows it (`JsValues.ToString`).
- `attachWS` registers no `disconnect` handler. For both namespaces, disconnection is socket.io's removal of the socket (`Hub.Disconnect`).
- bcrypt, jsonwebtoken and Postgres are oracles in `Http.Backend`:
  - hashing, signature checking and SQL semantics are not modelled;
  - `jwt.sign` is modelled as never throwing, so a missing secret, which would throw, is not modelled;
  - the only behaviour of jsonwebtoken kept is that it rejects a missing or empty token (`Headers.JwtVerify`).
- What follows a `Rejected` response is not modelled. Under Express 5 the router answers 500; under
  Express 4 the rejection is unhandled, and Node 15 or later then ends the process.
- MiddlewareComparison.GatesAgreeOnBearer: assumes the two middlewares' `jwt.verify` results agree on the token. This holds when `JWT_SECRET` is set. When it is unset, the router verifies with "dev_secret" (nebula_backend/src/routes/auth.js:16), while the mounted middleware passes `undefined` as the secret. jsonwebtoken 9 then rejects every token, while 8.5.1 and earlier accept an unsigned (`alg: none`) token and return its payload; that case is not covered.
- The bcrypt/bcryptjs fallback import (nebula_backend/src/routes/auth.js:5-12) is not modelled.
- JWT secret and expiry configuration (nebula_backend/src/routes/auth.js:16-22) and `dotenv` are not modelled.
- Request bodies are assumed to be objects, as `express.json()` provides. The `username` and `password` fields are arbitrary values. The Authorization header is an optional string.
- Express wiring and server start-up (`nebula_backend/src/index.js`) are not modelled. It mounts `auth.js`'s handlers and only `attachWS`, but the model covers `attachWatchParty` as well.
- `nebula_backend/src/channels.js` and `nebula_backend/src/messages.js` are plain SQL wrappers and are not part of this model.
- The GTK runner (`nebula_frontend/linux/runner/main.cc`) is not part of this model.
- `new Date().toISOString()` is a `now` parameter of `send_message`.
- There is no per-room playback state, because the code keeps none.

=== FILE: auth.dfy ===
/**
 * The auth module the server actually mounts: `register` and `login` for
 * `/api/register` and `/api/login`, and the `verifyToken` middleware that
 * guards the channel and message routes. Unlike the router module it does no
 * presence check on the body, `login` has no catch (a failing library call
 * rejects the handler's promise, with nothing sent), and the token is the second space-separated
 * word of the header, whatever the first word is.
 */
module Auth {
  import opened JsValues
  import opened Http
  import opened Headers

  /** Postgres' unique_violation error code. */
  const UniqueViolation: Value := Str("23505")

  // ---------------------------------------------------------------------
  // register
  // ---------------------------------------------------------------------

  /** The catch block of `register`. */
  function RegisterFailure(f: Fault): Response {
    if f.code == UniqueViolation then Sent(400, ErrorBody("Username already exists"))
    else Sent(500, ErrorBody("Internal server error"))
  }

  /** `register(req, res)` with body fields `username` and `password`. */
  function Register(username: Value, password: Value, b: Backend): Handled {
    match b.hash(password)
    case Err(f) => Handled(RegisterFailure(f), [Hashed(password)])
    case Ok(h) =>
      var calls := [Hashed(password), Queried(InsertUser, [username, h])];
      match b.query(InsertUser, [username, h])
      case Err(f) => Handled(RegisterFailure(f), calls)
      case Ok(_) => Handled(Sent(200, Obj(map["ok" := Bool(true)])), calls)
  }

  /** A failure is 400 exactly for a unique violation, and 500 for anything else. */
  lemma RegisterFailureMapping(f: Fault)
    ensures RegisterFailure(f).status == 400 <==> f.code == Str("23505")
    ensures RegisterFailure(f).status == 400 ==> RegisterFailure(f).body == ErrorBody("Username already exists")
    ensures RegisterFailure(f).status != 400 ==> RegisterFailure(f) == Sent(500, ErrorBody("Internal server error"))
  {
  }

  /**
   * `{ ok: true }` is sent exactly when the hash and then the insert of
   * `[username, hash]` succeed. There is no presence check: the password is
   * always hashed first, whatever the body holds.
   */
  lemma RegisterOkOnlyAfterInsert(username: Value, password: Value, b: Backend)
    ensures Register(username, password, b).calls[0] == Hashed(password)
    ensures Register(username, password, b).response == Sent(200, Obj(map["ok" := Bool(true)]))
        <==> b.hash(password).Ok? && b.query(InsertUser, [username, b.hash(password).value]).Ok?
    ensures b.hash(password).Ok? ==>
      Register(username, password, b).calls == [Hashed(password), Queried(InsertUser, [username, b.hash(password).value])]
  {
    if b.hash(password).Err? {
      RegisterFailureMapping(b.hash(password).fault);
    } else if b.query(InsertUser, [username, b.hash(password).value]).Err? {
      RegisterFailureMapping(b.query(InsertUser, [username, b.hash(password).value]).fault);
    }
  }

  /**
   * A failing hash or insert is answered by the catch block with that
   * error: 400 "Username already exists" exactly when the failure is a
   * unique violation, 500 otherwise. `register` always answers.
   */
  lemma RegisterAnswersFailures(username: Value, password: Value, b: Backend)
    ensures Register(username, password, b).response.Sent?
    ensures b.hash(password).Err? ==>
      Register(username, password, b).response == RegisterFailure(b.hash(password).fault)
    ensures b.hash(password).Ok? && b.query(InsertUser, [username, b.hash(password).value]).Err? ==>
      Register(username, password, b).response == RegisterFailure(b.query(InsertUser, [username, b.hash(password).value]).fault)
    ensures Register(username, password, b).response == Sent(400, ErrorBody("Username already exists"))
        <==> (b.hash(password).Err? && b.hash(password).fault.code == UniqueViolation)
             || (b.hash(password).Ok? && b.query(InsertUser, [username, b.hash(password).value]).Err?
                 && b.query(InsertUser, [username, b.hash(password).value]).fault.code == UniqueViolation)
  {
    assert ErrorBody("Username already exists") != ErrorBody("Internal server error") by {
      assert ErrorBody("Username already exists").props["error"] == Str("Username already exists");
    }
    assert Obj(map["ok" := Bool(true)]) != ErrorBody("Username already exists") by {
      assert "ok" in Obj(map["ok" := Bool(true)]).props;
    }
  }

  // ---------------------------------------------------------------------
  // login
  // ---------------------------------------------------------------------

  /** The TypeError thrown when reading a property of a null row. */
  const TypeErrorFault := Fault(Undefined)

  /** The JWT payload signed at login: the stored row's `id` and the username as the request spelled it. */
  function TokenPayload(user: Value, username: Value): Value
    requires !Nullish(user)
  {
    Obj(map["id" := Get(user, "id"), "username" := username])
  }

  /** `login(req, res)` with body fields `username` and `password`. */
  function Login(username: Value, password: Value, b: Backend): Handled {
    var select := Queried(SelectUser, [username]);
    match b.query(SelectUser, [username])
    case Err(f) => Handled(Rejected(f), [select])
    case Ok(rows) =>
      if |rows| == 0 then Handled(Sent(401, ErrorBody("Invalid")), [select])
      else
        var user := rows[0];
        if Nullish(user) then Handled(Rejected(TypeErrorFault), [select])
        else
          var compared := Compared(password, Get(user, "password_hash"));
          match b.compare(password, Get(user, "password_hash"))
          case Err(f) => Handled(Rejected(f), [select, compared])
          case Ok(match_) =>
            if !match_ then Handled(Sent(401, ErrorBody("Invalid")), [select, compared])
            else
              var payload := TokenPayload(user, username);
              Handled(Sent(200, Obj(map["token" := b.sign(payload)])), [select, compared, Signed(payload)])
  }

  /**
   * No matching row and a wrong password get the same 401 "Invalid", and
   * nothing else does; a failing query, a null row or a failing comparison
   * rejects the handler's promise.
   */
  lemma LoginHidesWhichCheckFailed(username: Value, password: Value, b: Backend)
    ensures b.query(SelectUser, [username]).Err? ==>
      Login(username, password, b).response == Rejected(b.query(SelectUser, [username]).fault)
    ensures b.query(SelectUser, [username]).Ok? ==>
      var rows := b.query(SelectUser, [username]).value;
      |rows| > 0 && Nullish(rows[0]) ==> Login(username, password, b).response == Rejected(TypeErrorFault)
    ensures b.query(SelectUser, [username]).Ok? ==>
      var rows := b.query(SelectUser, [username]).value;
      |rows| > 0 && !Nullish(rows[0]) && b.compare(password, Get(rows[0], "password_hash")).Err? ==>
        Login(username, password, b).response == Rejected(b.compare(password, Get(rows[0], "password_hash")).fault)
    ensures b.query(SelectUser, [username]).Ok? ==>
      var rows := b.query(SelectUser, [username]).value;
      Login(username, password, b).response == Sent(401, ErrorBody("Invalid"))
      <==> (|rows| == 0 || (!Nullish(rows[0]) && b.compare(password, Get(rows[0], "password_hash")) == Ok(false)))
  {
  }

  /**
   * A stored row whose hash matches the password gets 200 with the token
   * signed over the row's id and the request's username.
   */
  lemma LoginAcceptsMatchingPassword(username: Value, password: Value, b: Backend)
    requires b.query(SelectUser, [username]).Ok?
    requires var rows := b.query(SelectUser, [username]).value;
      |rows| > 0 && !Nullish(rows[0]) && b.compare(password, Get(rows[0], "password_hash")) == Ok(true)
    ensures var row := b.query(SelectUser, [username]).value[0];
      Login(username, password, b).response
        == Sent(200, Obj(map["token" := b.sign(TokenPayload(row, username))]))
  {
  }

  /**
   * A successful login signs `{ id, username }` with the id of the stored
   * row but the username as the request spelled it, and answers the token.
   */
  lemma LoginSignsRequestName(username: Value, password: Value, b: Backend)
    requires Login(username, password, b).response.Sent?
    requires Login(username, password, b).response.status == 200
    ensures b.query(SelectUser, [username]).Ok?
    ensures var rows := b.query(SelectUser, [username]).value;
      && |rows| > 0 && !Nullish(rows[0])
      && b.compare(password, Get(rows[0], "password_hash")) == Ok(true)
      && var payload := TokenPayload(rows[0], username);
      && payload.props.Keys == {"id", "username"}
      && payload.props["id"] == Get(rows[0], "id") && payload.props["username"] == username
      && Login(username, password, b).calls[|Login(username, password, b).calls| - 1] == Signed(payload)
      && Login(username, password, b).response.body == Obj(map["token" := b.sign(payload)])
  {
    var rows := b.query(SelectUser, [username]).value;
    var payload := TokenPayload(rows[0], username);
    assert payload.props.Keys == {"id", "username"};
  }

  // ---------------------------------------------------------------------
  // verifyToken middleware
  // ---------------------------------------------------------------------

  /** The decision of `verifyToken` for an Authorization header. */
  function SplitGate(authorization: Option<string>, verify: string -> Option<Value>): Gate {
    if authorization.None? || authorization.value == "" then Deny(Sent(401, ErrorBody("No token")))
    else match JwtVerify(verify, SecondWord(authorization.value))
      case None => Deny(Sent(401, ErrorBody("Invalid token")))
      case Some(decoded) => Admit(decoded)
  }

  /**
   * "No token" exactly without a header; otherwise admission exactly when
   * the second word is present, non-empty and verifies, "Invalid token"
   * otherwise (a header without a space included).
   */
  lemma SplitGateDecides(authorization: Option<string>, verify: string -> Option<Value>)
    ensures SplitGate(authorization, verify) == Deny(Sent(401, ErrorBody("No token")))
        <==> authorization.None? || authorization.value == ""
    ensures authorization.Some? && authorization.value != "" ==>
      (SplitGate(authorization, verify).Admit? <==>
         (SecondWord(authorization.value).Some? && SecondWord(authorization.value).value != "" &&
          verify(SecondWord(authorization.value).value).Some?))
    ensures authorization.Some? && authorization.value != "" && ' ' !in authorization.value ==>
      SplitGate(authorization, verify) == Deny(Sent(401, ErrorBody("Invalid token")))
    ensures authorization.Some? && authorization.value != "" && !SplitGate(authorization, verify).Admit? ==>
      SplitGate(authorization, verify) == Deny(Sent(401, ErrorBody("Invalid token")))
    ensures SplitGate(authorization, verify).Admit? ==>
      && authorization.Some? && SecondWord(authorization.value).Some?
      && verify(SecondWord(authorization.value).value) == Some(SplitGate(authorization, verify).user)
  {
    assert ErrorBody("No token") != ErrorBody("Invalid token") by {
      assert ErrorBody("No token").props["error"] == Str("No token");
    }
    if authorization.Some? {
      NoSpaceNoSecondWord(authorization.value);
    }
  }

  /** The scheme word is not checked: any first word works like "Bearer". */
  lemma SplitGateIgnoresScheme(scheme: string, t: string, verify: string -> Option<Value>)
    requires ' ' !in scheme
    ensures SplitGate(Some(scheme + " " + t), verify) == SplitGate(Some("Bearer " + t), verify)
    ensures t != "" && ' ' !in t ==>
      SplitGate(Some(scheme + " " + t), verify) ==
        (match verify(t)
         case Some(decoded) => Admit(decoded)
         case None => Deny(Sent(401, ErrorBody("Invalid token"))))
  {
    SecondWordIgnoresScheme(scheme, t);
    if ' ' !in t {
      SecondWordOf(scheme, t, "");
      assert scheme + " " + t + "" == scheme + " " + t;
    }
  }

  /** `verifyToken(req, res, next)`. */
  method VerifyToken(x: Exchange, verify: string -> Option<Value>)
    modifies x
    ensures Applied(x, SplitGate(x.authorization, verify))
  {
    Apply(x, SplitGate(x.authorization, verify));
  }
}

=== FILE: headers.dfy ===
/**
 * Extracting a bearer token from an Authorization header, in the two ways
 * the code base does it: `header.split(" ")[1]` and
 * `header.startsWith("Bearer ") ? header.slice(7) : null`.
 */
module Headers {
  import opened JsValues

  /** `s.split(" ")`: the maximal space-free pieces between single spaces. */
  function Split(s: string): (parts: seq<string>)
    ensures |parts| >= 1
    ensures forall i :: 0 <= i < |parts| ==> ' ' !in parts[i]
  {
    if s == [] then [""]
    else
      var rest := Split(s[1..]);
      if s[0] == ' ' then [""] + rest
      else [[s[0]] + rest[0]] + rest[1..]
  }

  /** `parts.join(" ")`: the inverse of Split. */
  function JoinSpaced(parts: seq<string>): string
    requires |parts| >= 1
  {
    if |parts| == 1 then parts[0] else parts[0] + " " + JoinSpaced(parts[1..])
  }

  /** Splitting loses nothing: joining the pieces back gives the header. */
  lemma {:induction false} JoinSplit(s: string)
    ensures JoinSpaced(Split(s)) == s
  {
    if s != [] {
      var rest := Split(s[1..]);
      JoinSplit(s[1..]);
      if s[0] == ' ' {
        assert Split(s) == [""] + rest;
        assert ([""] + rest)[1..] == rest;
      } else {
        var parts := [[s[0]] + rest[0]] + rest[1..];
        assert Split(s) == parts;
        if |rest| == 1 {
          assert JoinSpaced(parts) == [s[0]] + rest[0];
        } else {
          assert parts[1..] == rest[1..];
          assert JoinSpaced(parts) == [s[0]] + (rest[0] + " " + JoinSpaced(rest[1..]));
        }
        assert s == [s[0]] + s[1..];
      }
    }
  }

  /** A space-free word in front of `rest` is glued to the first piece of `rest`. */
  lemma {:induction false} SplitAfterWord(w: string, rest: string)
    requires ' ' !in w
    ensures Split(w + rest) == [w + Split(rest)[0]] + Split(rest)[1..]
    decreases |w|
  {
    var p := Split(rest);
    if w == [] {
      assert w + rest == rest;
      assert w + p[0] == p[0];
      assert p == [p[0]] + p[1..];
    } else {
      var s := w + rest;
      var tail := w[1..] + rest;
      assert s[0] == w[0] && s[1..] == tail;
      SplitAfterWord(w[1..], rest);
      var r := Split(tail);
      assert r[0] == w[1..] + p[0] && r[1..] == p[1..];
      assert Split(s) == [[w[0]] + r[0]] + r[1..];
      assert [w[0]] + (w[1..] + p[0]) == w + p[0];
    }
  }

  /** `header.split(" ")[1]`; None stands for `undefined` (no space in the header). */
  function SecondWord(h: string): Option<string> {
    var parts := Split(h);
    if |parts| >= 2 then Some(parts[1]) else None
  }

  /**
   * The second word is whatever follows the first space, up to the next
   * space; the first word (the scheme) plays no part.
   */
  lemma SecondWordOf(scheme: string, token: string, tail: string)
    requires ' ' !in scheme && ' ' !in token
    requires tail == [] || tail[0] == ' '
    ensures SecondWord(scheme + " " + token + tail) == Some(token)
  {
    SplitAfterWord(token, tail);
    if tail != [] {
      assert Split(tail) == [""] + Split(tail[1..]);
    }
    assert Split(token + tail)[0] == token;
    assert scheme + " " + token + tail == scheme + (" " + (token + tail));
    SplitAfterWord(scheme, " " + (token + tail));
    assert Split(" " + (token + tail)) == [""] + Split(token + tail);
  }

  /** The first word plays no part in the second word, whatever follows the first space. */
  lemma SecondWordIgnoresScheme(scheme: string, rest: string)
    requires ' ' !in scheme
    ensures SecondWord(scheme + " " + rest) == SecondWord("Bearer " + rest)
  {
    assert (" " + rest)[1..] == rest;
    assert Split(" " + rest) == [""] + Split(rest);
    SplitAfterWord(scheme, " " + rest);
    SplitAfterWord("Bearer", " " + rest);
    assert scheme + " " + rest == scheme + (" " + rest);
    assert "Bearer " + rest == "Bearer" + (" " + rest);
  }

  /** A header with no space has no second word. */
  lemma NoSpaceNoSecondWord(h: string)
    ensures SecondWord(h).None? <==> ' ' !in h
  {
    if ' ' !in h {
      SplitAfterWord(h, "");
      assert h + "" == h;
    } else {
      var i :| 0 <= i < |h| && h[i] == ' ';
      JoinSplit(h);
    }
  }

  /** `auth.startsWith("Bearer ") ? auth.slice(7) : null`. */
  function BearerToken(auth: string): Option<string> {
    if |auth| >= 7 && auth[..7] == "Bearer " then Some(auth[7..]) else None
  }

  /** A bearer token is present exactly when the header is "Bearer " followed by it. */
  lemma BearerTokenIff(auth: string, t: string)
    ensures BearerToken(auth) == Some(t) <==> auth == "Bearer " + t
  {
    if auth == "Bearer " + t {
      assert auth[..7] == "Bearer ";
      assert auth[7..] == t;
    }
    if BearerToken(auth) == Some(t) {
      assert auth == auth[..7] + auth[7..];
    }
  }

  /**
   * `jwt.verify(token, secret)` with the library's own first check: a
   * missing or empty token is rejected ("jwt must be provided") before the
   * signature is looked at.
   */
  function JwtVerify(verify: string -> Option<Value>, token: Option<string>): Option<Value> {
    match token
    case None => None
    case Some(t) => if t == "" then None else verify(t)
  }
}

=== FILE: http_model.dfy ===
/**
 * What the Express handlers of the two auth modules see and produce. The
 * libraries they call (bcrypt, jsonwebtoken, the Postgres pool) are oracles
 * gathered in a `Backend`; every handler reports its response together with
 * the oracle calls it made, in order.
 */
module Http {
  import opened JsValues

  /** A thrown error; only its `code` property is ever inspected. */
  datatype Fault = Fault(code: Value)

  datatype Result<T> = Ok(value: T) | Err(fault: Fault)

  /**
   * The response a handler sends (`res.status(s).json(b)`, status 200 when
   * not set), or `Rejected` when the async handler has no catch for an error
   * and its promise rejects with `fault` before anything is sent.
   */
  datatype Response = Sent(status: nat, body: Value) | Rejected(fault: Fault)

  /** `{ error: msg }`. */
  function ErrorBody(msg: string): Value {
    Obj(map["error" := Str(msg)])
  }

  /** The SQL statements the handlers issue. */
  datatype Sql =
    | InsertUser             // INSERT INTO users (username, password_hash) VALUES ($1,$2)
    | InsertUserUnlessTaken  // INSERT ... ON CONFLICT (username) DO NOTHING RETURNING id, username
    | SelectUser             // SELECT * FROM users WHERE username=$1
    | SelectCredentials      // SELECT id, username, password FROM users WHERE username = $1

  /** One call into a library, with its arguments. */
  datatype Call =
    | Hashed(password: Value)
    | Queried(sql: Sql, params: seq<Value>)
    | Compared(password: Value, hash: Value)
    | Signed(payload: Value)

  datatype Handled = Handled(response: Response, calls: seq<Call>)

  /**
   * The library oracles: `bcrypt.hash(p, 10)`, `bcrypt.compare(p, h)`, a
   * query returning its rows, `jwt.sign(payload, secret)` and
   * `jwt.verify(token, secret)` (None when it throws).
   */
  datatype Backend = Backend(
    hash: Value -> Result<Value>,
    compare: (Value, Value) -> Result<bool>,
    query: (Sql, seq<Value>) -> Result<seq<Value>>,
    sign: Value -> Value,
    verify: string -> Option<Value>)

  /** A middleware's decision: call `next()` with `req.user` set, or respond. */
  datatype Gate = Admit(user: Value) | Deny(response: Response)

  /** One request/response pair as a middleware sees it. */
  class Exchange {
    /** `req.headers.authorization`; None when the header is absent. */
    const authorization: Option<string>
    /** `req.user`; None until a middleware sets it. */
    var user: Option<Value>
    /** How many times `next()` has been called. */
    var nextCalls: nat
    /** What has been sent on `res`, if anything. */
    var response: Option<Response>

    constructor (authorization: Option<string>)
      ensures this.authorization == authorization
      ensures user == None && nextCalls == 0 && response == None
    {
      this.authorization := authorization;
      user := None;
      nextCalls := 0;
      response := None;
    }
  }

  /** The exchange after a middleware acted on `g`: either `req.user` set and one `next()`, or a response. */
  twostate predicate Applied(x: Exchange, g: Gate)
    reads x
  {
    match g
    case Admit(u) =>
      x.user == Some(u) && x.nextCalls == old(x.nextCalls) + 1 && x.response == old(x.response)
    case Deny(r) =>
      x.response == Some(r) && x.user == old(x.user) && x.nextCalls == old(x.nextCalls)
  }

  /** A middleware acting on its decision: set `req.user` and call `next()`, or respond. */
  method Apply(x: Exchange, g: Gate)
    modifies x
    ensures Applied(x, g)
  {
    match g
    case Admit(u) =>
      x.user := Some(u);
      x.nextCalls := x.nextCalls + 1;
    case Deny(r) =>
      x.response := Some(r);
  }
}

=== FILE: js_values.dfy ===
/**
 * The JavaScript values that cross the boundary of the relay and the HTTP
 * handlers: event arguments, request-body fields, JSON response bodies,
 * decoded token payloads and database rows. Only the operations the handlers
 * apply to them are modelled: property reads, truthiness (`!x`) and string
 * conversion (template literals such as `ch_${x}`), which can throw.
 *
 * The values are JSON-decoded, so none of them is a function: a property
 * named `toString` is never callable.
 */
module JsValues {

  datatype Option<T> = None | Some(value: T)

  /** A JSON-like JavaScript value. Numbers are restricted to integers. */
  datatype Value =
    | Undefined
    | Null
    | Bool(b: bool)
    | Num(n: int)
    | Str(s: string)
    | Arr(items: seq<Value>)
    | Obj(props: map<string, Value>)

  /** `null` and `undefined`: reading a property of either throws a TypeError. */
  predicate Nullish(v: Value) {
    v.Undefined? || v.Null?
  }

  /**
   * `v.key`. None stands for the TypeError thrown on null and undefined; a
   * missing property, or any property of a primitive, reads as undefined.
   */
  function Prop(v: Value, key: string): (r: Option<Value>)
    ensures r.None? <==> Nullish(v)
    ensures v.Obj? && key in v.props ==> r == Some(v.props[key])
    ensures v.Obj? && key !in v.props ==> r == Some(Undefined)
    ensures !v.Obj? && !Nullish(v) ==> r == Some(Undefined)
  {
    match v
    case Undefined => None
    case Null => None
    case Obj(p) => Some(if key in p then p[key] else Undefined)
    case _ => Some(Undefined)
  }

  /** `v.key` where `v` is known not to be null or undefined. */
  function Get(v: Value, key: string): Value
    requires !Nullish(v)
  {
    Prop(v, key).value
  }

  /** JavaScript truthiness: what `if (x)` and `!x` test. */
  predicate Truthy(v: Value) {
    match v
    case Undefined => false
    case Null => false
    case Bool(b) => b
    case Num(n) => n != 0
    case Str(s) => s != ""
    case Arr(_) => true
    case Obj(_) => true
  }

  // ---------------------------------------------------------------------
  // String conversion, as a template literal performs it
  // ---------------------------------------------------------------------

  predicate IsDigit(c: char) {
    '0' as int <= c as int <= '9' as int
  }

  function DigitChar(d: int): (c: char)
    requires 0 <= d < 10
    ensures IsDigit(c) && c as int - '0' as int == d
  {
    ('0' as int + d) as char
  }

  /** The decimal digits of a natural number, without leading zeros. */
  function NatToString(n: nat): (s: string)
    ensures |s| >= 1
    ensures forall i :: 0 <= i < |s| ==> IsDigit(s[i])
  {
    if n < 10 then [DigitChar(n)] else NatToString(n / 10) + [DigitChar(n % 10)]
  }

  /** The value a string of decimal digits denotes; partner of NatToString. */
  function DigitsValue(s: string): nat
    requires forall i :: 0 <= i < |s| ==> IsDigit(s[i])
  {
    if s == [] then 0
    else
      var last := s[|s| - 1];
      assert IsDigit(last);
      DigitsValue(s[..|s| - 1]) * 10 + (last as int - '0' as int)
  }

  /** `String(n)` for an integer `n`. */
  function IntToString(n: int): (s: string)
    ensures |s| >= 1
  {
    if n < 0 then "-" + NatToString(-n) else NatToString(n)
  }

  /** The pieces joined with commas, as `Array.prototype.join` does by default. */
  function JoinCommas(pieces: seq<string>): string {
    if |pieces| == 0 then ""
    else if |pieces| == 1 then pieces[0]
    else pieces[0] + "," + JoinCommas(pieces[1..])
  }

  /** The strings of `ps` when every one is present, None as soon as one is missing. */
  function AllPresent(ps: seq<Option<string>>): (r: Option<seq<string>>)
    ensures r.Some? <==> forall i :: 0 <= i < |ps| ==> ps[i].Some?
    ensures r.Some? ==> |r.value| == |ps| && forall i :: 0 <= i < |ps| ==> r.value[i] == ps[i].value
  {
    if ps == [] then Some([])
    else if ps[0].None? then None
    else match AllPresent(ps[1..])
      case None => None
      case Some(rest) => Some([ps[0].value] + rest)
  }

  /**
   * The conversion `${v}` applies, with None for the TypeError it throws.
   *
   * An object converts through its `toString` method, or through `valueOf`
   * when `toString` is not callable. An own `toString` property is never
   * callable here, and `valueOf` (own or inherited) never yields a primitive,
   * so such an object throws; any other object renders as "[object Object]".
   * An array renders its elements joined by commas, null and undefined
   * elements as empty strings, and throws when an element's conversion does.
   */
  function ToString(v: Value): (r: Option<string>)
    ensures !v.Obj? && !v.Arr? ==> r.Some?
    ensures v.Obj? ==> (r.None? <==> "toString" in v.props)
    ensures v.Obj? && "toString" !in v.props ==> r == Some("[object Object]")
  {
    match v
    case Undefined => Some("undefined")
    case Null => Some("null")
    case Bool(b) => Some(if b then "true" else "false")
    case Num(n) => Some(IntToString(n))
    case Str(s) => Some(s)
    case Arr(items) =>
      var pieces := AllPresent(seq(|items|, i requires 0 <= i < |items| =>
                                     if Nullish(items[i]) then Some("") else ToString(items[i])));
      if pieces.None? then None else Some(JoinCommas(pieces.value))
    case Obj(p) => if "toString" in p then None else Some("[object Object]")
  }

  /** Converting an array throws exactly when converting one of its non-null elements throws. */
  lemma ArrayToStringThrowsIff(items: seq<Value>)
    ensures ToString(Arr(items)).None? <==>
      exists i :: 0 <= i < |items| && !Nullish(items[i]) && ToString(items[i]).None?
  {
    var ps := seq(|items|, i requires 0 <= i < |items| =>
                    if Nullish(items[i]) then Some("") else ToString(items[i]));
    assert forall i :: 0 <= i < |items| ==> ps[i] == (if Nullish(items[i]) then Some("") else ToString(items[i]));
  }

  /** A one-element array converts like its element, unless that element is null or undefined. */
  lemma SingletonArrayToString(x: Value)
    ensures !Nullish(x) ==> ToString(Arr([x])) == ToString(x)
    ensures Nullish(x) ==> ToString(Arr([x])) == Some("")
  {
    var ps := seq(1, i requires 0 <= i < 1 => if Nullish([x][i]) then Some("") else ToString([x][i]));
    assert ps == [if Nullish(x) then Some("") else ToString(x)];
  }

  /** Reading back the digits of a number gives the number. */
  lemma {:induction false} DigitsRoundTrip(n: nat)
    ensures DigitsValue(NatToString(n)) == n
  {
    var s := NatToString(n);
    if n >= 10 {
      assert s[..|s| - 1] == NatToString(n / 10);
      DigitsRoundTrip(n / 10);
    }
  }

  /** Distinct integers have distinct decimal renderings. */
  lemma IntToStringInjective(a: int, b: int)
    ensures IntToString(a) == IntToString(b) <==> a == b
  {
    if IntToString(a) == IntToString(b) {
      var sa, sb := IntToString(a), IntToString(b);
      assert (a < 0) == (sa[0] == '-');
      assert (b < 0) == (sb[0] == '-');
      if a < 0 {
        assert NatToString(-a) == sa[1..];
        assert NatToString(-b) == sb[1..];
        DigitsRoundTrip(-a);
        DigitsRoundTrip(-b);
      } else {
        DigitsRoundTrip(a);
        DigitsRoundTrip(b);
      }
    }
  }
}

=== FILE: middleware_comparison.dfy ===
/**
 * The two `verifyToken` middlewares side by side: they agree on the plain
 * "Bearer <token>" header and part ways on every other scheme word.
 */
module MiddlewareComparison {
  import opened JsValues
  import opened Http
  import opened Headers
  import RoutesAuth
  import Auth

  /**
   * On "Bearer <t>" with a non-empty, space-free `t`, both middlewares decide
   * alike whenever their `jwt.verify` calls agree on `t`. Each verifies with
   * its own secret (`routerVerify` with JWT_SECRET or "dev_secret",
   * `mountedVerify` with JWT_SECRET alone), so the agreement is what holds
   * when JWT_SECRET is set.
   */
  lemma GatesAgreeOnBearer(t: string, routerVerify: string -> Option<Value>, mountedVerify: string -> Option<Value>)
    requires t != "" && ' ' !in t
    requires routerVerify(t) == mountedVerify(t)
    ensures RoutesAuth.BearerGate(Some("Bearer " + t), routerVerify) == Auth.SplitGate(Some("Bearer " + t), mountedVerify)
  {
    RoutesAuth.BearerGateVerifiesRest(t, routerVerify);
    Auth.SplitGateIgnoresScheme("Bearer", t, mountedVerify);
    assert "Bearer" + " " + t == "Bearer " + t;
  }

  /**
   * With any scheme word other than "Bearer", the router's middleware answers
   * "Missing token" while the mounted one verifies the second word.
   */
  lemma OnlySplitGateAcceptsOtherSchemes(scheme: string, t: string, verify: string -> Option<Value>)
    requires ' ' !in scheme && ' ' !in t && scheme != "Bearer"
    ensures RoutesAuth.BearerGate(Some(scheme + " " + t), verify) == Deny(Sent(401, ErrorBody("Missing token")))
    ensures Auth.SplitGate(Some(scheme + " " + t), verify) == Auth.SplitGate(Some("Bearer " + t), verify)
  {
    var h := scheme + " " + t;
    if |h| >= 7 {
      var prefix := h[..7];
      if |scheme| < 6 {
        assert prefix[|scheme|] == ' ' != "Bearer "[|scheme|];
      } else if |scheme| == 6 {
        var i :| 0 <= i < 6 && scheme[i] != "Bearer"[i];
        assert prefix[i] != "Bearer "[i];
      } else {
        assert prefix[6] == scheme[6] != "Bearer "[6];
      }
    }
    assert BearerToken(h).None?;
    Auth.SplitGateIgnoresScheme(scheme, t, verify);
  }
}

=== FILE: routes_auth.dfy ===
/**
 * The router module of the auth endpoints: the `verifyToken` middleware that
 * accepts only "Bearer <token>" headers, and the `/register`, `/login`,
 * `/profile` and `/me` handlers. Every handler body sits in a try block whose
 * catch answers 500 "Server error" (401 "Invalid token" for `/profile`).
 */
module RoutesAuth {
  import opened JsValues
  import opened Http
  import opened Headers

  // ---------------------------------------------------------------------
  // verifyToken middleware
  // ---------------------------------------------------------------------

  /** The decision of `verifyToken` for an Authorization header. */
  function BearerGate(authorization: Option<string>, verify: string -> Option<Value>): Gate {
    var auth := if authorization.Some? then authorization.value else "";
    var token := BearerToken(auth);
    if token.None? || token.value == "" then Deny(Sent(401, ErrorBody("Missing token")))
    else match verify(token.value)
      case None => Deny(Sent(401, ErrorBody("Invalid token")))
      case Some(decoded) => Admit(decoded)
  }

  /**
   * "Missing token" is answered exactly when there is no header, or it does
   * not start with "Bearer ", or nothing follows "Bearer ".
   */
  lemma MissingTokenIff(authorization: Option<string>, verify: string -> Option<Value>)
    ensures BearerGate(authorization, verify) == Deny(Sent(401, ErrorBody("Missing token")))
        <==> authorization.None? || BearerToken(authorization.value).None? || authorization.value == "Bearer "
  {
    if authorization.Some? {
      var a := authorization.value;
      BearerTokenIff(a, "");
      assert "Bearer " + "" == "Bearer ";
      if BearerToken(a).Some? && BearerToken(a).value == "" {
        assert a == "Bearer ";
      }
    } else {
      assert BearerToken("").None?;
    }
    assert ErrorBody("Missing token") != ErrorBody("Invalid token") by {
      assert ErrorBody("Missing token").props["error"] == Str("Missing token");
    }
  }

  /**
   * For a header "Bearer <t>" with a non-empty `t`, the token handed to
   * jwt.verify is exactly `t` (spaces and all): success admits with the
   * decoded payload as `req.user`, failure answers "Invalid token".
   */
  lemma BearerGateVerifiesRest(t: string, verify: string -> Option<Value>)
    requires t != ""
    ensures BearerGate(Some("Bearer " + t), verify)
         == (match verify(t)
             case Some(decoded) => Admit(decoded)
             case None => Deny(Sent(401, ErrorBody("Invalid token"))))
  {
    BearerTokenIff("Bearer " + t, t);
  }

  /** `verifyToken(req, res, next)`. */
  method VerifyToken(x: Exchange, verify: string -> Option<Value>)
    modifies x
    ensures Applied(x, BearerGate(x.authorization, verify))
  {
    Apply(x, BearerGate(x.authorization, verify));
  }

  /** `GET /me`: `verifyToken`, then `{ user: req.user }`. */
  method Me(x: Exchange, verify: string -> Option<Value>)
    requires x.response == None
    modifies x
    ensures x.nextCalls == old(x.nextCalls) + (if BearerGate(x.authorization, verify).Admit? then 1 else 0)
    ensures x.user == (match BearerGate(x.authorization, verify)
                       case Admit(u) => Some(u)
                       case Deny(_) => old(x.user))
    ensures x.response == Some(match BearerGate(x.authorization, verify)
                               case Admit(u) => Sent(200, Obj(map["user" := u]))
                               case Deny(r) => r)
  {
    VerifyToken(x, verify);
    if x.response == None {
      x.response := Some(Sent(200, Obj(map["user" := x.user.value])));
    }
  }

  // ---------------------------------------------------------------------
  // POST /register
  // ---------------------------------------------------------------------

  /** `POST /register` with body fields `username` and `password`. */
  function Register(username: Value, password: Value, b: Backend): Handled {
    if !Truthy(username) || !Truthy(password) then
      Handled(Sent(400, ErrorBody("Username and password required")), [])
    else match b.hash(password)
      case Err(_) => Handled(Sent(500, ErrorBody("Server error")), [Hashed(password)])
      case Ok(h) =>
        var calls := [Hashed(password), Queried(InsertUserUnlessTaken, [username, h])];
        match b.query(InsertUserUnlessTaken, [username, h])
        case Err(_) => Handled(Sent(500, ErrorBody("Server error")), calls)
        case Ok(rows) =>
          if |rows| == 0 then Handled(Sent(409, ErrorBody("Username already exists")), calls)
          else Handled(Sent(200, Obj(map["ok" := Bool(true), "user" := rows[0]])), calls)
  }

  /** A missing or empty field is answered 400 before any hashing or database call, and only then. */
  lemma RegisterChecksFieldsFirst(username: Value, password: Value, b: Backend)
    ensures Register(username, password, b).calls == [] <==> !Truthy(username) || !Truthy(password)
    ensures Register(username, password, b).response.status == 400 <==> !Truthy(username) || !Truthy(password)
    ensures Truthy(username) && Truthy(password) ==> Register(username, password, b).calls[0] == Hashed(password)
  {
  }

  /**
   * With both fields present and the hash computed, the conflict-ignoring
   * insert decides: no returned row is 409, otherwise the first row is
   * returned under `user`. Server failures are 500.
   */
  lemma RegisterOutcomes(username: Value, password: Value, b: Backend)
    requires Truthy(username) && Truthy(password)
    ensures b.hash(password).Err? ==> Register(username, password, b).response == Sent(500, ErrorBody("Server error"))
    ensures b.hash(password).Ok? ==>
      var h := b.hash(password).value;
      var r := Register(username, password, b);
      && r.calls == [Hashed(password), Queried(InsertUserUnlessTaken, [username, h])]
      && match b.query(InsertUserUnlessTaken, [username, h])
         case Err(_) => r.response == Sent(500, ErrorBody("Server error"))
         case Ok(rows) =>
           (r.response.status == 409 <==> |rows| == 0) &&
           (|rows| > 0 ==> r.response == Sent(200, Obj(map["ok" := Bool(true), "user" := rows[0]])))
  {
  }

  // ---------------------------------------------------------------------
  // POST /login
  // ---------------------------------------------------------------------

  /** The JWT payload signed for a database row: `{ id, username }` of the row. */
  function LoginPayload(user: Value): Value
    requires !Nullish(user)
  {
    Obj(map["id" := Get(user, "id"), "username" := Get(user, "username")])
  }

  /** `POST /login` with body fields `username` and `password`. */
  function Login(username: Value, password: Value, b: Backend): Handled {
    if !Truthy(username) || !Truthy(password) then
      Handled(Sent(400, ErrorBody("Username and password required")), [])
    else
      var select := Queried(SelectCredentials, [username]);
      match b.query(SelectCredentials, [username])
      case Err(_) => Handled(Sent(500, ErrorBody("Server error")), [select])
      case Ok(rows) =>
        var user := if |rows| > 0 then rows[0] else Undefined;
        if !Truthy(user) then Handled(Sent(401, ErrorBody("Invalid credentials")), [select])
        else
          var compared := Compared(password, Get(user, "password"));
          match b.compare(password, Get(user, "password"))
          case Err(_) => Handled(Sent(500, ErrorBody("Server error")), [select, compared])
          case Ok(ok) =>
            if !ok then Handled(Sent(401, ErrorBody("Invalid credentials")), [select, compared])
            else
              var payload := LoginPayload(user);
              Handled(Sent(200, Obj(map["token" := b.sign(payload)])),
                      [select, compared, Signed(payload)])
  }

  /**
   * A missing or empty field is answered 400 before the database is asked,
   * and only then; a failing query is answered 500.
   */
  lemma LoginChecksFieldsFirst(username: Value, password: Value, b: Backend)
    ensures Login(username, password, b).calls == [] <==> !Truthy(username) || !Truthy(password)
    ensures Login(username, password, b).response.status == 400 <==> !Truthy(username) || !Truthy(password)
    ensures Truthy(username) && Truthy(password) ==>
      && Login(username, password, b).calls[0] == Queried(SelectCredentials, [username])
      && (b.query(SelectCredentials, [username]).Err? ==>
            Login(username, password, b).response == Sent(500, ErrorBody("Server error")))
  {
  }

  /**
   * An unknown user and a wrong password get the same answer, 401 "Invalid
   * credentials", and these are the only two ways to get it.
   */
  lemma LoginHidesWhichCheckFailed(username: Value, password: Value, b: Backend)
    requires Truthy(username) && Truthy(password)
    requires b.query(SelectCredentials, [username]).Ok?
    ensures var rows := b.query(SelectCredentials, [username]).value;
      Login(username, password, b).response == Sent(401, ErrorBody("Invalid credentials"))
      <==> (|rows| == 0 || !Truthy(rows[0]) || b.compare(password, Get(rows[0], "password")) == Ok(false))
  {
    assert ErrorBody("Invalid credentials") != ErrorBody("Server error") by {
      assert ErrorBody("Invalid credentials").props["error"] == Str("Invalid credentials");
    }
  }

  /**
   * Once a truthy row is found, the password comparison decides: a failing
   * comparison is answered 500, a match 200 with the token signed over the
   * row's `{ id, username }`.
   */
  lemma LoginComparesStoredPassword(username: Value, password: Value, b: Backend)
    requires Truthy(username) && Truthy(password)
    requires b.query(SelectCredentials, [username]).Ok?
    requires var rows := b.query(SelectCredentials, [username]).value; |rows| > 0 && Truthy(rows[0])
    ensures var row := b.query(SelectCredentials, [username]).value[0];
      match b.compare(password, Get(row, "password"))
      case Err(_) => Login(username, password, b).response == Sent(500, ErrorBody("Server error"))
      case Ok(ok) => ok ==> Login(username, password, b).response == Sent(200, Obj(map["token" := b.sign(LoginPayload(row))]))
  {
  }

  /**
   * A successful login signs exactly `{ id, username }` taken from the
   * database row, never the stored password hash, and answers the token.
   */
  lemma LoginSignsIdAndName(username: Value, password: Value, b: Backend)
    requires Login(username, password, b).response.Sent?
    requires Login(username, password, b).response.status == 200
    ensures b.query(SelectCredentials, [username]).Ok?
    ensures var rows := b.query(SelectCredentials, [username]).value;
      && |rows| > 0 && Truthy(rows[0])
      && var payload := Obj(map["id" := Get(rows[0], "id"), "username" := Get(rows[0], "username")]);
      && payload.props.Keys == {"id", "username"}
      && Login(username, password, b).calls[|Login(username, password, b).calls| - 1] == Signed(payload)
      && Login(username, password, b).response.body == Obj(map["token" := b.sign(payload)])
  {
    var payload := LoginPayload(b.query(SelectCredentials, [username]).value[0]);
    assert payload.props.Keys == {"id", "username"};
  }

  // ---------------------------------------------------------------------
  // GET /profile
  // ---------------------------------------------------------------------

  /** `GET /profile`: decodes the second word of the header, whatever the scheme. */
  function Profile(authorization: Option<string>, verify: string -> Option<Value>): Response {
    if authorization.None? || authorization.value == "" then Sent(401, ErrorBody("No token"))
    else match JwtVerify(verify, SecondWord(authorization.value))
      case None => Sent(401, ErrorBody("Invalid token"))
      case Some(decoded) =>
        if Nullish(decoded) then Sent(401, ErrorBody("Invalid token"))
        else Sent(200, Obj(map["id" := Get(decoded, "id"), "username" := Get(decoded, "username")]))
  }

  /**
   * The profile answer is 200 exactly when the second word verifies, and then
   * holds only the `id` and `username` of the decoded payload.
   */
  lemma ProfileProjectsClaims(authorization: Option<string>, verify: string -> Option<Value>)
    ensures Profile(authorization, verify) == Sent(401, ErrorBody("No token"))
        <==> authorization.None? || authorization.value == ""
    ensures authorization.Some? && authorization.value != "" && Profile(authorization, verify).status != 200 ==>
      Profile(authorization, verify) == Sent(401, ErrorBody("Invalid token"))
    ensures Profile(authorization, verify).status == 200 <==>
      authorization.Some? && authorization.value != "" &&
      JwtVerify(verify, SecondWord(authorization.value)).Some? &&
      !Nullish(JwtVerify(verify, SecondWord(authorization.value)).value)
    ensures Profile(authorization, verify).status == 200 ==>
      var decoded := JwtVerify(verify, SecondWord(authorization.value)).value;
      && Profile(authorization, verify).body.props.Keys == {"id", "username"}
      && Profile(authorization, verify).body.props["id"] == Get(decoded, "id")
      && Profile(authorization, verify).body.props["username"] == Get(decoded, "username")
  {
    assert ErrorBody("No token") != ErrorBody("Invalid token") by {
      assert ErrorBody("No token").props["error"] == Str("No token");
    }
  }

  /** The scheme word is not checked: "Basic t" is treated like "Bearer t". */
  lemma ProfileIgnoresScheme(scheme: string, t: string, verify: string -> Option<Value>)
    requires ' ' !in scheme
    ensures Profile(Some(scheme + " " + t), verify) == Profile(Some("Bearer " + t), verify)
  {
    SecondWordIgnoresScheme(scheme, t);
  }
}

=== FILE: socket_relay.dfy ===
/**
 * The real-time relay: chat channels on the default socket.io namespace and
 * watch-party rooms on the "/watchparty" namespace.
 *
 * The only server state is room membership, kept per namespace as a map from
 * a connected socket's id to the set of rooms it has joined. The socket.io
 * primitives the handlers use are modelled by three rules:
 *   - `socket.join(r)` adds `r` to the socket's room set;
 *   - `io.to(r).emit(e)` delivers `e` to every member of `r`;
 *   - `socket.to(r).emit(e)` delivers `e` to every member of `r` except the
 *     emitting socket;
 * and `socket.emit(e)` delivers `e` to the emitting socket alone.
 * Room keys are JavaScript values: a chat room is the string "ch_" followed by
 * the channel id converted to a string, a watch-party room is the room id as
 * the client sent it.
 */
module SocketRelay {
  import opened JsValues

  type ConnId = string

  /** The default namespace "/" (chat) and the "/watchparty" namespace. */
  datatype Namespace = Chat | WatchParty

  /** The events the server emits, with the payload it attaches. */
  datatype Event =
    | ReceiveMessage(user: Value, channelId: Value, message: Value, createdAt: string)
    | JoinedRoom(roomId: Value)
    | SyncAction(kind: Value, payload: Value)

  /** One event delivered to one socket of one namespace. */
  datatype Delivery = Delivery(ns: Namespace, to: ConnId, event: Event)

  /**
   * What a handler does with an incoming event: emit a set of deliveries
   * (socket.io guarantees no order between recipients), or throw a TypeError,
   * raised by reading a field of a null or undefined argument or by a string
   * conversion (`ToString`) that throws.
   */
  datatype Outcome = Emitted(deliveries: set<Delivery>) | Threw

  /** The rooms each connected socket of one namespace has joined. */
  type Membership = map<ConnId, set<Value>>

  /** The room key `ch_${ch}` a chat channel id maps to, None when the conversion throws. */
  function ChannelRoom(ch: Value): (r: Option<Value>)
    ensures r.None? <==> ToString(ch).None?
    ensures r.Some? ==> r.value.Str? && |r.value.s| >= 3 && r.value.s[..3] == "ch_" && r.value.s[3..] == ToString(ch).value
  {
    match ToString(ch)
    case None => None
    case Some(s) => Some(Str("ch_" + s))
  }

  /** The sockets that have joined `room`. */
  function Members(m: Membership, room: Value): set<ConnId> {
    set c | c in m && room in m[c]
  }

  /** `socket.join(room)` for socket `c`. */
  function Join(m: Membership, c: ConnId, room: Value): Membership
    requires c in m
  {
    m[c := m[c] + {room}]
  }

  /** Emitting `ev` in `ns` to the members of `room`, leaving out `except`. */
  function Broadcast(ns: Namespace, m: Membership, room: Value, except: set<ConnId>, ev: Event): set<Delivery> {
    set c | c in Members(m, room) - except :: Delivery(ns, c, ev)
  }

  /** The sockets a set of deliveries reaches. */
  function Recipients(ds: set<Delivery>): set<ConnId> {
    set d | d in ds :: d.to
  }

  /** The sockets an outcome reaches: none when the handler threw. */
  function Reached(h: Outcome): set<ConnId> {
    if h.Emitted? then Recipients(h.deliveries) else {}
  }

  /** The `receive_message` payload built from a `send_message` argument. */
  function MessageEvent(data: Value, now: string): Event
    requires !Nullish(data)
  {
    ReceiveMessage(Get(data, "user"), Get(data, "channelId"), Get(data, "message"), now)
  }

  /** What the `send_message` handler emits, given the chat membership. */
  function SendMessageOutcome(chat: Membership, data: Value, now: string): Outcome {
    if Nullish(data) then Threw
    else match ChannelRoom(Get(data, "channelId"))
      case None => Threw
      case Some(room) => Emitted(Broadcast(Chat, chat, room, {}, MessageEvent(data, now)))
  }

  /**
   * What the `sync_action` handler emits for `sender`, given the watch-party
   * membership. Destructuring the argument throws on null and undefined; the
   * log line then converts `type` and `roomId` to strings before the relay.
   */
  function SyncActionOutcome(party: Membership, sender: ConnId, data: Value): Outcome {
    if Nullish(data) then Threw
    else if ToString(Get(data, "type")).None? || ToString(Get(data, "roomId")).None? then Threw
    else Emitted(Broadcast(WatchParty, party, Get(data, "roomId"), {sender},
                           SyncAction(Get(data, "type"), Get(data, "payload"))))
  }

  // ---------------------------------------------------------------------
  // Properties of the routing rules
  // ---------------------------------------------------------------------

  /** Joining adds the socket to that one room and changes no other room. */
  lemma JoinAddsOnlyThatRoom(m: Membership, c: ConnId, room: Value)
    requires c in m
    ensures Join(m, c, room).Keys == m.Keys
    ensures forall r :: Members(Join(m, c, room), r) == Members(m, r) + (if r == room then {c} else {})
  {
    forall r ensures Members(Join(m, c, room), r) == Members(m, r) + (if r == room then {c} else {}) {
    }
  }

  /** A broadcast reaches exactly the members of the room outside `except`, each with the same event. */
  lemma BroadcastReaches(ns: Namespace, m: Membership, room: Value, except: set<ConnId>, ev: Event)
    ensures Recipients(Broadcast(ns, m, room, except, ev)) == Members(m, room) - except
    ensures forall d :: d in Broadcast(ns, m, room, except, ev) ==> d.ns == ns && d.event == ev
  {
    var b := Broadcast(ns, m, room, except, ev);
    forall c | c in Members(m, room) - except ensures c in Recipients(b) {
      assert Delivery(ns, c, ev) in b;
    }
  }

  /**
   * `send_message` throws exactly on a null or undefined argument, or on a
   * channel id whose string conversion throws; otherwise it reaches every
   * socket that joined `ch_<channelId>`, and no other.
   */
  lemma SendMessageReachesChannel(chat: Membership, data: Value, now: string)
    ensures SendMessageOutcome(chat, data, now).Threw?
        <==> Nullish(data) || ToString(Get(data, "channelId")).None?
    ensures SendMessageOutcome(chat, data, now).Emitted? ==>
      Recipients(SendMessageOutcome(chat, data, now).deliveries)
        == Members(chat, ChannelRoom(Get(data, "channelId")).value)
  {
    if !Nullish(data) && ChannelRoom(Get(data, "channelId")).Some? {
      BroadcastReaches(Chat, chat, ChannelRoom(Get(data, "channelId")).value, {}, MessageEvent(data, now));
    }
  }

  /**
   * The sender gets its own message back exactly when the handler does not
   * throw and the sender has joined the channel's room.
   */
  lemma SenderEchoIffJoined(chat: Membership, sender: ConnId, data: Value, now: string)
    requires sender in chat
    ensures sender in Reached(SendMessageOutcome(chat, data, now))
        <==> !Nullish(data) && ChannelRoom(Get(data, "channelId")).Some?
             && ChannelRoom(Get(data, "channelId")).value in chat[sender]
  {
    SendMessageReachesChannel(chat, data, now);
  }

  /**
   * Every `receive_message` copies user, channelId and message from the
   * argument and carries the server's timestamp: any other field of the
   * argument, a client-supplied `created_at` included, changes nothing.
   */
  lemma ReceiveMessageStampedByServer(chat: Membership, data: Value, other: Value, now: string)
    requires !Nullish(data) && !Nullish(other)
    requires Get(data, "user") == Get(other, "user")
    requires Get(data, "channelId") == Get(other, "channelId")
    requires Get(data, "message") == Get(other, "message")
    ensures SendMessageOutcome(chat, data, now) == SendMessageOutcome(chat, other, now)
    ensures SendMessageOutcome(chat, data, now).Emitted? ==>
      forall d :: d in SendMessageOutcome(chat, data, now).deliveries ==>
        d.ns == Chat &&
        d.event == ReceiveMessage(Get(data, "user"), Get(data, "channelId"), Get(data, "message"), now)
  {
    if ChannelRoom(Get(data, "channelId")).Some? {
      BroadcastReaches(Chat, chat, ChannelRoom(Get(data, "channelId")).value, {}, MessageEvent(data, now));
    }
  }

  /**
   * `sync_action` throws exactly on a null or undefined argument, or when the
   * log line cannot convert `type` or `roomId`; otherwise it reaches every
   * member of `roomId` except the sender, and forwards only `{type, payload}`.
   */
  lemma SyncActionSkipsSender(party: Membership, sender: ConnId, data: Value)
    ensures SyncActionOutcome(party, sender, data).Threw?
        <==> Nullish(data) || ToString(Get(data, "type")).None? || ToString(Get(data, "roomId")).None?
    ensures SyncActionOutcome(party, sender, data).Emitted? ==>
      var ds := SyncActionOutcome(party, sender, data).deliveries;
      && Recipients(ds) == Members(party, Get(data, "roomId")) - {sender}
      && sender !in Recipients(ds)
      && forall d :: d in ds ==> d.ns == WatchParty && d.event == SyncAction(Get(data, "type"), Get(data, "payload"))
  {
    if SyncActionOutcome(party, sender, data).Emitted? {
      BroadcastReaches(WatchParty, party, Get(data, "roomId"), {sender},
                       SyncAction(Get(data, "type"), Get(data, "payload")));
    }
  }

  /**
   * Only `roomId`, `type` and `payload` of a `sync_action` argument matter;
   * the forwarded event does not carry the room id.
   */
  lemma SyncActionReadsThreeFields(party: Membership, sender: ConnId, data: Value, other: Value)
    requires !Nullish(data) && !Nullish(other)
    requires Get(data, "roomId") == Get(other, "roomId")
    requires Get(data, "type") == Get(other, "type")
    requires Get(data, "payload") == Get(other, "payload")
    ensures SyncActionOutcome(party, sender, data) == SyncActionOutcome(party, sender, other)
  {
  }

  /**
   * The namespaces are disjoint: chat broadcasts stay on the default
   * namespace among chat sockets, watch-party broadcasts on "/watchparty"
   * among watch-party sockets, whatever rooms of the other namespace exist.
   */
  lemma NamespacesIsolated(chat: Membership, party: Membership, sender: ConnId, data: Value, now: string)
    ensures SendMessageOutcome(chat, data, now).Emitted? ==>
      forall d :: d in SendMessageOutcome(chat, data, now).deliveries ==> d.ns == Chat && d.to in chat
    ensures SyncActionOutcome(party, sender, data).Emitted? ==>
      forall d :: d in SyncActionOutcome(party, sender, data).deliveries ==> d.ns == WatchParty && d.to in party
  {
    SendMessageReachesChannel(chat, data, now);
    SyncActionSkipsSender(party, sender, data);
    if SendMessageOutcome(chat, data, now).Emitted? {
      ReceiveMessageStampedByServer(chat, data, data, now);
      forall d | d in SendMessageOutcome(chat, data, now).deliveries ensures d.to in chat {
        assert d.to in Recipients(SendMessageOutcome(chat, data, now).deliveries);
      }
    }
    if SyncActionOutcome(party, sender, data).Emitted? {
      forall d | d in SyncActionOutcome(party, sender, data).deliveries ensures d.to in party {
        assert d.to in Recipients(SyncActionOutcome(party, sender, data).deliveries);
      }
    }
  }

  /**
   * Chat room keys compare channel ids by their string form: 5, "5" and [5]
   * share a room, as do a missing id and the string "undefined", and every
   * object without an own `toString` lands in "ch_[object Object]"; distinct
   * numbers and distinct strings never share a room, and an object with an
   * own `toString` has no room at all. Watch-party room keys are the raw
   * values, so 5 and "5" are different watch-party rooms.
   */
  lemma ChannelRoomKeys(a: int, b: int, x: string, y: string, p: map<string, Value>)
    ensures ChannelRoom(Num(a)) == ChannelRoom(Str(IntToString(a)))
    ensures ChannelRoom(Arr([Num(a)])) == ChannelRoom(Num(a))
    ensures ChannelRoom(Arr([Str(x)])) == ChannelRoom(Str(x))
    ensures ChannelRoom(Undefined) == ChannelRoom(Str("undefined"))
    ensures ChannelRoom(Num(a)) == ChannelRoom(Num(b)) <==> a == b
    ensures ChannelRoom(Str(x)) == ChannelRoom(Str(y)) <==> x == y
    ensures ChannelRoom(Obj(p)).None? <==> "toString" in p
    ensures "toString" !in p ==> ChannelRoom(Obj(p)) == ChannelRoom(Str("[object Object]"))
    ensures ChannelRoom(Arr([Obj(p)])) == ChannelRoom(Obj(p))
    ensures Num(a) != Str(IntToString(a))
  {
    SingletonArrayToString(Num(a));
    SingletonArrayToString(Str(x));
    SingletonArrayToString(Obj(p));
    if ChannelRoom(Num(a)) == ChannelRoom(Num(b)) {
      IntToStringInjective(a, b);
    }
  }

  // ---------------------------------------------------------------------
  // The server: handlers over mutable membership
  // ---------------------------------------------------------------------

  /**
   * The socket.io server with the chat handlers (`attachWS`) on the default
   * namespace and the watch-party handlers (`attachWatchParty`) on
   * "/watchparty". Nothing is stored per room.
   */
  class Hub {
    var chat: Membership
    var party: Membership

    constructor ()
      ensures chat == map[] && party == map[]
    {
      chat := map[];
      party := map[];
    }

    /** A client connects to a namespace: socket.io gives it a fresh id and no rooms. */
    method Connect(ns: Namespace, id: ConnId)
      requires ns == Chat ==> id !in chat
      requires ns == WatchParty ==> id !in party
      modifies this
      ensures ns == Chat ==> chat == old(chat)[id := {}] && party == old(party)
      ensures ns == WatchParty ==> party == old(party)[id := {}] && chat == old(chat)
    {
      if ns == Chat {
        chat := chat[id := {}];
      } else {
        party := party[id := {}];
      }
    }

    /**
     * A socket disconnects. Its handler on "/watchparty" only logs; socket.io
     * itself drops the socket from every room, so no later broadcast of that
     * namespace reaches it. An unknown id is tolerated.
     */
    method Disconnect(ns: Namespace, id: ConnId)
      modifies this
      ensures ns == Chat ==> chat == old(chat) - {id} && party == old(party)
      ensures ns == WatchParty ==> party == old(party) - {id} && chat == old(chat)
      ensures ns == Chat ==> forall r :: id !in Members(chat, r)
      ensures ns == WatchParty ==> forall r :: id !in Members(party, r)
    {
      if ns == Chat {
        chat := chat - {id};
      } else {
        party := party - {id};
      }
    }

    /**
     * `join_channel(ch)`: join room `ch_${ch}` and emit nothing; when the
     * conversion of `ch` throws, nothing is joined.
     */
    method JoinChannel(id: ConnId, ch: Value) returns (h: Outcome)
      requires id in chat
      modifies this
      ensures ChannelRoom(ch).None? ==> h == Threw && chat == old(chat) && party == old(party)
      ensures ChannelRoom(ch).Some? ==>
        h == Emitted({}) && chat == Join(old(chat), id, ChannelRoom(ch).value) && party == old(party)
      ensures ChannelRoom(ch).Some? ==>
        forall r :: Members(chat, r) == Members(old(chat), r) + (if r == ChannelRoom(ch).value then {id} else {})
    {
      match ChannelRoom(ch)
      case None =>
        h := Threw;
      case Some(room) =>
        JoinAddsOnlyThatRoom(chat, id, room);
        chat := Join(chat, id, room);
        h := Emitted({});
    }

    /**
     * `send_message(data)`: emit `receive_message` to the whole channel room,
     * sender included if it joined. Changes no state (no modifies clause).
     */
    method SendMessage(sender: ConnId, data: Value, now: string) returns (h: Outcome)
      requires sender in chat
      ensures h == SendMessageOutcome(chat, data, now)
      ensures h.Threw? <==> Nullish(data) || ChannelRoom(Get(data, "channelId")).None?
      ensures h.Emitted? ==>
        Recipients(h.deliveries) == Members(chat, ChannelRoom(Get(data, "channelId")).value)
    {
      SendMessageReachesChannel(chat, data, now);
      h := SendMessageOutcome(chat, data, now);
    }

    /**
     * `join_room(roomId)`: join the room as given, then log it and acknowledge
     * to the joiner only. The join happens even when the log's conversion of
     * `roomId` throws; the acknowledgement then is never sent.
     */
    method JoinRoom(id: ConnId, roomId: Value) returns (h: Outcome)
      requires id in party
      modifies this
      ensures party == Join(old(party), id, roomId) && chat == old(chat)
      ensures forall r :: Members(party, r) == Members(old(party), r) + (if r == roomId then {id} else {})
      ensures ToString(roomId).Some? ==> h == Emitted({Delivery(WatchParty, id, JoinedRoom(roomId))})
      ensures ToString(roomId).None? ==> h == Threw
    {
      JoinAddsOnlyThatRoom(party, id, roomId);
      party := Join(party, id, roomId);
      if ToString(roomId).None? {
        return Threw;
      }
      h := Emitted({Delivery(WatchParty, id, JoinedRoom(roomId))});
    }

    /**
     * `sync_action({roomId, type, payload})`: relay `{type, payload}` to the
     * other members of the room. Changes no state (no modifies clause).
     */
    method SyncAction(sender: ConnId, data: Value) returns (h: Outcome)
      requires sender in party
      ensures h == SyncActionOutcome(party, sender, data)
      ensures h.Threw? <==> Nullish(data) || ToString(Get(data, "type")).None? || ToString(Get(data, "roomId")).None?
      ensures h.Emitted? ==> sender !in Recipients(h.deliveries)
    {
      SyncActionSkipsSender(party, sender, data);
      h := SyncActionOutcome(party, sender, data);
    }
  }
}
